=== FILE: README.md ===
# CMOS real-time clock driver, modelled in Dafny

A model of the PC CMOS clock module of a kernel (`src/mod.rs`, `src/rtc.rs`).
The module reads the battery-backed calendar registers once, decodes them
(BCD or binary, 12- or 24-hour) into seconds since 1970-01-01, and caches
that value as a clock source. Separately, it programs the chip's periodic
interrupt at 1024 Hz and advances a fixed-point timestamp by 125 on every
firing.

Modules:

- `Options` (`options.dfy`): `Option` and `Result`.
- `Registers` (`registers.dfy`): the 128-byte register file addressed
  through the select port, where the top bit of the select byte is not part
  of the address, and the register indices.
- `Calendar` (`calendar.dfy`): leap years, the leap-year count over a range
  of years, and the day count since the epoch. The source's month formula is
  modelled as written.
- `Decoder` (`decoder.dfy`): the register decode of `CMOSClock::init` over
  a snapshot of the registers. It does the BCD step, the hour's PM bit, the
  12-hour step, zero-basing, the century and the final sum.
- `Clock` (`clock.dfy`): `CMOSClock` as a two-state value, uninitialised or
  cached. The hardware snapshot and `TimestampScale::convert` are parameters.
- `Floppy` (`floppy.dfy`): drive types from register 0x10.
- `Rtc` (`rtc.dfy`): the status A/B read-modify-write transforms, the
  interrupt handler, `init` and `fini`. They act on a device record that
  holds the register file, the log of register reads, the timestamp and the
  registration handle.

Integer widths: bytes are `bv8`. The source's u32 fields are `nat`. The
decoder's hour stays a `bv8`, because every value it takes fits a byte. The
u32 cases that would underflow or overflow in the source form the
precondition `Decoder.Decodable`. There are four of them: a decoded day or
month of 0, a year before 1970, and a day count whose product with 86400
does not fit 32 bits.

Worked example: 2024-01-01 00:00:00 is day 19723 (54 years of 365 days
plus 13 leap days), so the driver caches 19723 × 86400 = 1704067200.

## Model

| member | source | states |
|---|---|---|
| `Registers.Selected` | src/mod.rs:64 | the register addressed by a select byte is the byte modulo 128, so the NMI bit plays no part |
| `Registers.Read` | src/mod.rs:62-67 | reading register `reg` below 0x80 with the select byte `0x80 \| reg` yields exactly that register's byte |
| `Registers.Write` | src/rtc.rs:29-30 | a write through the value port sets the selected register and leaves every other register unchanged |
| `Calendar.IsLeapYear` | src/mod.rs:142-150 | a year is leap exactly when it is divisible by 4 and not by 100, or divisible by 400 |
| `Calendar.LeapYearExamples` | src/mod.rs:142-150 | 1972, 2000 and 2024 are leap years; 1900, 1970 and 2023 are not |
| `Calendar.LeapYearsBetween` | src/mod.rs:155-159 | the count of leap years in [first, last) equals the closed form (multiples of 4, minus multiples of 100, plus multiples of 400 below `last` and not below `first`); it is 0 for an empty range |
| `Calendar.LeapYearsBetweenCountsFilter` | src/mod.rs:155-159 | the count is the size of the set of years in [first, last) that the leap-year filter keeps |
| `Calendar.LeapYearsBetweenExtend` | src/mod.rs:155-159 | extending the range by its end year `last` adds 1 exactly when `last` is a leap year |
| `Calendar.YearDaysAreYearLengths` | src/mod.rs:163 | `(year - 1970) * 365 + leap years in [1970, year)` is the sum of the real lengths (365 or 366) of the years before `year` |
| `Calendar.MonthDays` | src/mod.rs:165-168 | the month offset is 30 days per month passed plus one for each 31-day month passed (every other month from January), plus the leap day from the third month of a leap year |
| `Calendar.MonthDaysStep` | src/mod.rs:165-168 | the month offset grows by 31 after an even zero-based month and 30 after an odd one, plus 1 when leaving month 1 of a leap year |
| `Calendar.DaysSinceEpoch` | src/mod.rs:162-171 | the day count is 365 per whole year since 1970 plus one for each year in [1970, year) that the leap-year filter keeps, plus the month offset and the day |
| `Calendar.EpochIsDayZero` | src/mod.rs:162-171 | (1970, 0, 0) is day 0 |
| `Calendar.FirstOfJanuary2024` | src/mod.rs:162-171 | (2024, 0, 0) is day 19723 |
| `Calendar.DaysSinceEpochNextDay` | src/mod.rs:170 | the next day of the same month is exactly one day later |
| `Calendar.DaysSinceEpochIncreasesWithDay` | src/mod.rs:162-171 | the day count is strictly increasing in the day |
| `Calendar.DaysSinceEpochYearStep` | src/mod.rs:162-171 | the same month and day a year later is 366 days on when the February passed over is in a leap year, otherwise 365 |
| `Calendar.DaysSinceEpochBefore2106` | src/mod.rs:162-171 | every date with a month below 12 and a day below 31, up to the end of 2105, is at most day 49675 |
| `Calendar.DaysSinceEpochIncreasesWithYear` | src/mod.rs:162-171 | with month and day fixed, the day count is strictly increasing in the year |
| `Calendar.DecemberOvertakesNextYear` | src/mod.rs:165-168 | as written, 1970-03-01 is day 61 where the calendar has 59, 1970-12-31 (day 366) comes after 1971-01-01 (day 365), and 31 August / 1 September (day 244) and 31 October / 1 November (day 305) coincide |
| `Calendar.GregorianDaysAreConsecutive` | src/mod.rs:165-168 | with the Gregorian month table, the last day of each month is followed by day one of the next month, and 31 December by 1 January of the next year |
| `Decoder.ReadSnapshot` | src/mod.rs:208-220 | the snapshot holds registers 0x00, 0x02, 0x04, 0x07, 0x08, 0x09, 0x32 and status B (0x0b) |
| `Decoder.BcdToBinary` | src/mod.rs:222-229 | BCD decode of a widened byte is low nibble plus ten times high nibble, at most 165 |
| `Decoder.BcdRoundTrip` | src/mod.rs:222-229 | for every n in 0..99, BCD-encoding then decoding gives n, and the encoding is valid BCD |
| `Decoder.BcdRoundTripFromByte` | src/mod.rs:222-229 | every valid BCD byte decodes to a number below 100 whose encoding is that byte |
| `Decoder.BcdHour` | src/mod.rs:224 | the hour decode keeps bit 0x80 exactly and decodes the low seven bits as BCD |
| `Decoder.BcdStep` | src/mod.rs:214-231 | with status B bit 2 set the raw values are kept; with it clear second, minute, day, month and year are BCD-decoded and the hour keeps its PM bit; the century is BCD-decoded only when it was read from the register, and is 20 otherwise; in BCD mode the hour is `BcdHour` of the raw hour (PM bit kept, low seven bits BCD-decoded) |
| `Decoder.To24Hour` | src/mod.rs:233-235 | with status B bit 1 clear and the PM bit set, the hour is below 24, is congruent mod 12 to the 7-bit hour, is hour + 12 for 7-bit hours 1 to 11, and is 0 for 7-bit hour 12; otherwise the hour is unchanged |
| `Decoder.Convert` | src/mod.rs:221-235 | the 12-hour step changes only the hour; in 24-hour mode the hour is the BCD step's; in 12-hour mode an AM hour is left as the BCD step gave it, a PM hour goes through the 12-hour step (so `To24Hour`'s contract applies) and comes out below 24, and the result never carries the PM bit |
| `Decoder.ToDateTime` | src/mod.rs:237-239 | day and month become zero-based, the year's last two digits are the register's while the century is added in the hundreds, and second, minute and hour pass through unchanged |
| `Decoder.Decodable` | src/mod.rs:237-242 | a decodable snapshot has a decoded day and month of at least 1 (no u32 underflow), a year from 1970 on, and a day count of at most 49710, the largest whose product with 86400 fits a u32 |
| `Decoder.Decode` | src/mod.rs:237-242 | decoding zero-bases the converted day and month, adds the century times 100 to the year, passes second, minute and hour through, and gives a year from 1970 on with a day count whose product with 86400 fits a u32 |
| `Decoder.SecondsSinceEpoch` | src/mod.rs:241-245 | with a valid time of day, the seconds divided by 86400 are the day count and the remainder is the time of day in seconds |
| `Decoder.Timestamp` | src/mod.rs:237-245 | the decoded timestamp is below 2^32 plus the largest time-of-day sum, since the day product is a u32 |
| `Decoder.TimestampSplits` | src/mod.rs:241-245 | with a valid time of day, the timestamp divided by 86400 is the day count and the remainder is hour*3600 + minute*60 + second |
| `Decoder.EncodedHourDecodes` | src/mod.rs:224-235 | a BCD hour below 24 in 24-hour mode decodes to itself |
| `Decoder.DecodeInvertsEncode` | src/mod.rs:214-239 | decoding the BCD, 24-hour registers that encode a date and time gives that date and time back |
| `Decoder.DatesBefore2106Fit` | src/mod.rs:242 | for every representable date from 1970 to the end of 2105 the u32 product of day count and 86400 does not overflow |
| `Decoder.LastDecodableDate` | src/mod.rs:242 | the snapshot for 2106-02-07 (day 49710) is decodable and the one for 2106-02-08 is not: its day product overflows a u32 |
| `Decoder.TimestampOfEncode` | src/mod.rs:214-245 | BCD, 24-hour registers that encode a date and time before 2106 are decodable and give that date's seconds since the epoch |
| `Decoder.BinaryModeTakesRawValues` | src/mod.rs:220-235 | in binary, 24-hour mode the decoded fields are the raw register values, with century 20 without the century register |
| `Decoder.TwoPmExample` | src/mod.rs:221-235 | raw hour 0x82 in 12-hour BCD mode decodes to 14, with 0x45 seconds giving 45 and 0x30 minutes giving 30 |
| `Decoder.FirstOfJanuary2024Example` | src/mod.rs:208-245 | the 2024-01-01 00:00:00 BCD snapshot is decodable and gives 1704067200, with or without the century register |
| `Decoder.TwelveOClockSwapped` | src/mod.rs:233-235 | as written, 12 PM (0x92) decodes to hour 0 and 12 AM (0x12) to hour 12 |
| `Decoder.TwelveHourRoundTrip` | src/mod.rs:224-235 | as written, every hour of the day written in 12-hour BCD form (1 to 12 plus the PM bit) decodes to itself, except midnight and noon, which trade places |
| `Decoder.IntendedTwelveHourRoundTrip` | src/mod.rs:224-235 | with the intended conversion every hour of the day written in 12-hour BCD form decodes to itself |
| `Decoder.IntendedTwelveHourClock` | src/mod.rs:233-235 | the 12-hour conversion gives h mod 12 in the morning and h mod 12 + 12 in the afternoon, and agrees with the code for every hour but 12 |
| `Clock.New` | src/mod.rs:187-198 | a new clock is uninitialised and reports the century-register flag it was built with |
| `Clock.Init` | src/mod.rs:201-247 | after `init` the timestamp is cached and the century flag unchanged; an uninitialised clock caches the snapshot's decoded timestamp; on an initialised clock `init` changes nothing |
| `Clock.CenturyRegisterIsFixed` | src/mod.rs:196-198 | `has_century_register` reports the same flag before and after `init` and `get_time` |
| `Clock.InitIsIdempotent` | src/mod.rs:201-204 | a second `init` returns the clock of the first, whatever the hardware holds |
| `Clock.GetTime` | src/mod.rs:255-261 | after `get_time` the timestamp is cached, an uninitialised clock becomes what `init` makes of it (the snapshot's decoded timestamp), an already cached clock is unchanged, and the answer is the cached seconds converted from seconds to the requested scale |
| `Clock.FirstQueryDecodesSnapshot` | src/mod.rs:255-258 | the first query caches the timestamp decoded from the snapshot it sees |
| `Clock.QueriesShareOneReading` | src/mod.rs:255-261 | a later query, at any scale and whatever the hardware holds, leaves the clock unchanged and returns the first query's seconds rescaled; at the same scale it returns the same value |
| `Clock.CacheNeverChanges` | src/mod.rs:255-261 | any number of later queries leave the clock of the first query unchanged |
| `Floppy.TypeFromNumber` | src/mod.rs:107-116 | a code names a drive exactly when it is in 1..5; 0 and 6..255 give no drive |
| `Floppy.TypeNumber` | src/mod.rs:107-116 | drive codes are at most 5, and 0 stands exactly for no drive |
| `Floppy.TypeNumberRoundTrip` | src/mod.rs:107-116 | every drive type is recovered from its code, and every code 1..5 from its drive type |
| `Floppy.TypeFromNumberInjective` | src/mod.rs:107-116 | distinct codes in 1..5 give distinct drive types |
| `Floppy.DecodeDrives` | src/mod.rs:119-128 | the master drive's code is the high nibble and the slave drive's the low nibble, or 0 when the nibble is not a drive code |
| `Floppy.DecodeInvertsEncode` | src/mod.rs:119-128 | decoding the byte that describes a pair of drives gives the pair back |
| `Floppy.GetFloppyType` | src/mod.rs:119-128 | the master drive is the type of register 0x10's high nibble and the slave drive that of its low nibble |
| `Floppy.GetFloppyTypeReadsRegister` | src/mod.rs:119-128 | the drives reported are the ones register 0x10 describes |
| `Rtc.EnableByte` | src/rtc.rs:27-30 | enabling sets bit 6 of status B and keeps every other bit |
| `Rtc.EnableIsIdempotent` | src/rtc.rs:27-30 | enabling twice is the same as enabling once |
| `Rtc.RateByte` | src/rtc.rs:33-38 | the rate write keeps the upper nibble of status A and sets the low nibble to 6 (1024 Hz) |
| `Rtc.DisableByte` | src/rtc.rs:67-70 | disabling clears bit 6 of status B and keeps every other bit |
| `Rtc.EnableThenDisable` | src/rtc.rs:27-30 | enabling then disabling is the same as disabling, and keeps every bit of status B except bit 6 |
| `Rtc.ReadRegister` | src/rtc.rs:27-28 | a read through select byte `b` returns register `b mod 128`, whatever the NMI bit; it appends that register to the read log and leaves the registers, the timestamp and the handle unchanged |
| `Rtc.WriteRegister` | src/rtc.rs:29-30 | a write through select byte `b` puts the value in register `b mod 128`, leaves every other register unchanged, and logs no read and changes neither the timestamp nor the handle |
| `Rtc.ReadModifyWrite` | src/rtc.rs:26-38 | the read-modify-write puts `update(prev)` in the register, leaves every other register, the timestamp and the handle unchanged, and logs one read of that register |
| `Rtc.Reset` | src/rtc.rs:15-20 | `reset` reads status C and changes nothing else |
| `Rtc.Arm` | src/rtc.rs:24-42 | programming enables status B bit 6 and sets the rate in status A, leaves every other register, the timestamp and the handle as they were, and reads B, A, C in that order |
| `Rtc.Init` | src/rtc.rs:23-62 | the device is always programmed; the handle becomes `Some(h)` exactly when registration returns `h`, and on failure the error is returned and the handle is left as it was |
| `Rtc.Tick` | src/rtc.rs:45-54 | a firing adds exactly 125 to the timestamp, reads status C once, changes no register or handle, and returns `InterruptResult(false, Resume)` |
| `Rtc.FiringsAccumulate` | src/rtc.rs:45-54 | n firings add exactly 125 n, read status C n times, and leave the registers and the handle alone |
| `Rtc.TimestampIsMonotonic` | src/rtc.rs:47-50 | the timestamp never decreases as firings accumulate |
| `Rtc.Fini` | src/rtc.rs:65-77 | `fini` clears only bit 6 of status B, changes no other register or the timestamp, reads status B once, and always leaves the handle `None` |
| `Rtc.InitThenFini` | src/rtc.rs:23-77 | after a successful `init`, any number of firings, then `fini`, status B has bit 6 clear and every other bit as it was, status A has rate 6, no other register changed, the timestamp gained 125 per firing, and there is no handle |

## Left out

- The update handshake `time_wait` / `is_time_ready` (src/mod.rs:131-139) is a busy-wait on the hardware update flag. Its only result is returning. The model starts from the snapshot read after it.
- Port I/O (`io::outb`/`io::inb`) is modelled as access to the register file, not as port operations.
- `idt::wrap_disable_interrupts`, the lock around the shared timestamp, and any race between the handler and other code are left out. The timestamp is a counter updated atomically.
- The shared timestamp's type is defined outside these files. It is an unbounded `nat`, so no overflow is modelled.
- `TimestampScale::convert` belongs to the kernel. It is a function parameter with no properties assumed.
- Module glue is left out: `init_`, `init`, `fini` of `src/mod.rs`, `get_name`, registering and removing the clock source, `acpi::is_century_register_present`, and logging. These are foreign kernel calls. Likewise the interrupt vector 0x28 and priority passed to `event::register_callback`: registration is modelled only through its outcome, a `Result` parameter of `Rtc.Init`.
- `FloppyDrives::get_master_type` / `get_slave_type` are field accessors, the fields of `Floppy.FloppyDrives`.
- Reading status C clears its flags in hardware. The model records the read in the read log and leaves the register's value alone.
- `Rtc.Init` does not reset the timestamp, because the code does not. The device is programmed before registration. So when registration fails, the error is returned but the periodic interrupt stays enabled.
- `Decoder.Decodable`: where the source's u32 arithmetic underflows or overflows, this precondition applies. The model does not follow the panic (debug build) or the wrap-around (release build).
- `Calendar.DaysSinceEpoch` is computed on unbounded integers. Each u32 intermediate is at most the final day count, which `Decoder.Decodable` keeps below 2^32 / 86400. Because of that product, dates up to 2106-02-07 (day 49710) decode; from 2106-02-08 on, the day product overflows.

## Findings

| source | as written | input that shows it | evidently intended | confidence | as-written member | corrected member |
|---|---|---|---|---|---|---|
| src/mod.rs:165-168 | months alternate 31 and 30 days from January; February counts 30 (31 in a leap year) | 1970-12-31 gives day 366, after 1971-01-01 at day 365; 1970-03-01 gives day 61 instead of 59; 1970-08-31 and 1970-09-01 are both day 244, and 1970-10-31 and 1970-11-01 both day 305 | Gregorian month lengths, so that consecutive dates are one day apart | high (not executed) | `Calendar.DecemberOvertakesNextYear` | `Calendar.GregorianDaysAreConsecutive` |
| src/mod.rs:233-235 | a PM hour becomes `((h & 0x7f) + 12) % 24`; an AM hour is unchanged | 12 PM (raw 0x92) decodes to hour 0, and 12 AM (raw 0x12) to hour 12 | 12 PM is hour 12, and 12 AM is hour 0 | high (not executed) | `Decoder.TwelveHourRoundTrip` | `Decoder.IntendedTwelveHourRoundTrip` |

The corrected definitions (`Calendar.GregorianDaysSinceEpoch`, `Decoder.To24HourIntended`) are kept next to the as-written ones. The decoder and the clock use the as-written formulas, because they model what the driver computes.

=== FILE: calendar.dfy ===
/**
 * Calendar arithmetic of the CMOS clock source (src/mod.rs): the Gregorian
 * leap-year rule, the count of leap years in a half-open range of years,
 * and the day count since 1970-01-01 computed from a zero-based month and
 * day with the source's own month-length formula.
 *
 * Years, months and days are u32 in the source. The only subtraction,
 * `year - 1970`, is a precondition here; every other intermediate is
 * bounded by the final day count, which the decoder keeps below 2^32 / 86400.
 */
module Calendar {

  const EPOCH_YEAR: nat := 1970

  /** `is_leap_year`. */
  predicate IsLeapYear(year: nat)
    ensures IsLeapYear(year) <==> (year % 4 == 0 && year % 100 != 0) || year % 400 == 0
  {
    if year % 4 != 0 then false
    else if year % 100 != 0 then true
    else year % 400 == 0
  }

  function YearLength(year: nat): nat
  {
    if IsLeapYear(year) then 366 else 365
  }

  /**
   * Closed form for the number of leap years in [0, year): the multiples
   * of 4, less the multiples of 100, plus the multiples of 400.
   */
  function LeapsBefore(year: nat): int
  {
    (year + 3) / 4 - (year + 99) / 100 + (year + 399) / 400
  }

  /**
   * One more year moves the count of multiples of `k` below it on exactly
   * when the year itself is a multiple of `k`.
   */
  lemma MultiplesStep(year: nat, k: nat)
    requires k == 4 || k == 100 || k == 400
    ensures (year + k) / k == (year + k - 1) / k + (if year % k == 0 then 1 else 0)
  {
    var q, m := year / k, year % k;
    if k == 4 {
      assert year + 4 == 4 * (q + 1) + m;
      assert (year + 4) / 4 == q + 1;
      assert (year + 3) / 4 == if m == 0 then q else q + 1;
    } else if k == 100 {
      assert year + 100 == 100 * (q + 1) + m;
      assert (year + 100) / 100 == q + 1;
      assert (year + 99) / 100 == if m == 0 then q else q + 1;
    } else {
      assert year + 400 == 400 * (q + 1) + m;
      assert (year + 400) / 400 == q + 1;
      assert (year + 399) / 400 == if m == 0 then q else q + 1;
    }
  }

  /** A multiple of 400 is a multiple of 100, and a multiple of 100 a multiple of 4. */
  lemma MultiplesNest(year: nat)
    ensures year % 400 == 0 ==> year % 100 == 0
    ensures year % 100 == 0 ==> year % 4 == 0
  {
    if year % 400 == 0 {
      var k := year / 400;
      assert year == 400 * k;
      assert (400 * k) % 100 == 0;
    }
    if year % 100 == 0 {
      var k := year / 100;
      assert year == 100 * k;
      assert (100 * k) % 4 == 0;
    }
  }

  lemma LeapsBeforeStep(year: nat)
    ensures LeapsBefore(year + 1) == LeapsBefore(year) + (if IsLeapYear(year) then 1 else 0)
  {
    MultiplesStep(year, 4);
    MultiplesStep(year, 100);
    MultiplesStep(year, 400);
    var four := if year % 4 == 0 then 1 else 0;
    var hundred := if year % 100 == 0 then 1 else 0;
    var fourHundred := if year % 400 == 0 then 1 else 0;
    assert LeapsBefore(year + 1) == LeapsBefore(year) + four - hundred + fourHundred;
    MultiplesNest(year);
  }

  /**
   * `leap_years_between(first..last)`: walks the range front to back and
   * counts the leap years, as the iterator's filter/count does. An empty or
   * reversed range counts nothing. The result agrees with the closed form.
   */
  function LeapYearsBetween(first: nat, last: nat): (n: nat)
    ensures n == if first <= last then LeapsBefore(last) - LeapsBefore(first) else 0
    decreases last - first
  {
    if last <= first then 0
    else
      LeapsBeforeStep(first);
      (if IsLeapYear(first) then 1 else 0) + LeapYearsBetween(first + 1, last)
  }

  /** The years the range filter keeps. */
  ghost function LeapYearSet(first: nat, last: nat): set<nat>
  {
    set year: nat | first <= year < last && IsLeapYear(year)
  }

  /** The count is exactly the number of years the filter keeps. */
  lemma {:induction false} LeapYearsBetweenCountsFilter(first: nat, last: nat)
    ensures LeapYearsBetween(first, last) == |LeapYearSet(first, last)|
    decreases last - first
  {
    if last <= first {
      assert LeapYearSet(first, last) == {};
    } else {
      LeapYearsBetweenCountsFilter(first + 1, last);
      var head: set<nat> := if IsLeapYear(first) then {first} else {};
      assert LeapYearSet(first, last) == head + LeapYearSet(first + 1, last);
      assert head !! LeapYearSet(first + 1, last);
    }
  }

  /** Growing the range by its end year adds one exactly when that year is a leap year. */
  lemma {:induction false} LeapYearsBetweenExtend(first: nat, last: nat)
    requires first <= last
    ensures LeapYearsBetween(first, last + 1)
            == LeapYearsBetween(first, last) + (if IsLeapYear(last) then 1 else 0)
  {
    LeapsBeforeStep(last);
  }

  /**
   * `month_days`: the source assumes months of alternately 31 and 30 days
   * starting with a 31-day January, and adds one day from the third month
   * on in a leap year. `month` is zero-based.
   */
  function MonthDays(year: nat, month: nat): (n: nat)
    ensures n == 30 * month + (month + 1) / 2 + (if IsLeapYear(year) && month >= 2 then 1 else 0)
  {
    assert (month + 1) / 2 + month / 2 == month;
    ((month + 1) / 2) * 31 + (month / 2) * 30
    + (if IsLeapYear(year) && month >= 2 then 1 else 0)
  }

  /** `get_days_since_epoch` with a zero-based month and day. */
  function DaysSinceEpoch(year: nat, month: nat, day: nat): (n: nat)
    requires year >= EPOCH_YEAR
    ensures n == (year - EPOCH_YEAR) * 365 + |LeapYearSet(EPOCH_YEAR, year)| + MonthDays(year, month) + day
  {
    LeapYearsBetweenCountsFilter(EPOCH_YEAR, year);
    (year - EPOCH_YEAR) * 365 + LeapYearsBetween(EPOCH_YEAR, year) + MonthDays(year, month) + day
  }

  /** Reference definition: the lengths of the whole years since 1970, summed one by one. */
  ghost function DaysBeforeYear(year: nat): nat
    requires year >= EPOCH_YEAR
    decreases year
  {
    if year == EPOCH_YEAR then 0 else DaysBeforeYear(year - 1) + YearLength(year - 1)
  }

  /** The year part of `get_days_since_epoch` is the sum of the true lengths of the years before. */
  lemma {:induction false} YearDaysAreYearLengths(year: nat)
    requires year >= EPOCH_YEAR
    ensures (year - EPOCH_YEAR) * 365 + LeapYearsBetween(EPOCH_YEAR, year) == DaysBeforeYear(year)
    decreases year
  {
    if year > EPOCH_YEAR {
      YearDaysAreYearLengths(year - 1);
      LeapYearsBetweenExtend(EPOCH_YEAR, year - 1);
    }
  }

  /**
   * Moving on to the next month adds 31 days after an even zero-based month
   * and 30 after an odd one, plus the leap day when leaving the second month
   * of a leap year.
   */
  lemma MonthDaysStep(year: nat, month: nat)
    ensures MonthDays(year, month + 1)
            == MonthDays(year, month) + (if month % 2 == 0 then 31 else 30)
               + (if IsLeapYear(year) && month == 1 then 1 else 0)
  {
    if month % 2 == 0 {
      assert (month + 2) / 2 == (month + 1) / 2 + 1;
      assert (month + 1) / 2 == month / 2;
    } else {
      assert (month + 2) / 2 == (month + 1) / 2;
      assert (month + 1) / 2 == month / 2 + 1;
    }
  }

  lemma {:induction false} LeapsBeforeMonotonic(year1: nat, year2: nat)
    requires year1 <= year2
    ensures LeapsBefore(year1) <= LeapsBefore(year2)
    decreases year2 - year1
  {
    if year1 < year2 {
      LeapsBeforeStep(year1);
      LeapsBeforeMonotonic(year1 + 1, year2);
    }
  }

  /** Every date up to the end of 2105 is at most day 49675. */
  lemma {:induction false} DaysSinceEpochBefore2106(year: nat, month: nat, day: nat)
    requires EPOCH_YEAR <= year < 2106 && month < 12 && day < 31
    ensures DaysSinceEpoch(year, month, day) <= 49675
  {
    LeapsBeforeMonotonic(year, 2105);
    assert LeapYearsBetween(EPOCH_YEAR, year) <= 33;
  }

  /** The epoch itself is day 0. */
  lemma EpochIsDayZero()
    ensures DaysSinceEpoch(EPOCH_YEAR, 0, 0) == 0
  {
  }

  /** 2024-01-01 is day 19723. */
  lemma FirstOfJanuary2024()
    ensures DaysSinceEpoch(2024, 0, 0) == 19723
  {
    assert LeapYearsBetween(EPOCH_YEAR, 2024) == 13;
  }

  lemma LeapYearExamples()
    ensures IsLeapYear(1972) && IsLeapYear(2000) && IsLeapYear(2024)
    ensures !IsLeapYear(1900) && !IsLeapYear(1970) && !IsLeapYear(2023)
  {
  }

  /** The next day of the same month is one more day. */
  lemma DaysSinceEpochNextDay(year: nat, month: nat, day: nat)
    requires year >= EPOCH_YEAR
    ensures DaysSinceEpoch(year, month, day + 1) == DaysSinceEpoch(year, month, day) + 1
  {
  }

  /** Strictly increasing in the day. */
  lemma DaysSinceEpochIncreasesWithDay(year: nat, month: nat, day1: nat, day2: nat)
    requires year >= EPOCH_YEAR && day1 < day2
    ensures DaysSinceEpoch(year, month, day1) < DaysSinceEpoch(year, month, day2)
  {
  }

  /**
   * The same month and day one year later is 366 days on when the February
   * passed over is a leap one (this year's before the third month, next
   * year's from it on), and 365 days otherwise.
   */
  lemma {:induction false} DaysSinceEpochYearStep(year: nat, month: nat, day: nat)
    requires year >= EPOCH_YEAR
    ensures DaysSinceEpoch(year + 1, month, day)
            == DaysSinceEpoch(year, month, day)
               + (if (month < 2 && IsLeapYear(year)) || (month >= 2 && IsLeapYear(year + 1)) then 366 else 365)
  {
    LeapYearsBetweenExtend(EPOCH_YEAR, year);
  }

  /** Strictly increasing in the year when month and day are held fixed. */
  lemma {:induction false} DaysSinceEpochIncreasesWithYear(year1: nat, year2: nat, month: nat, day: nat)
    requires EPOCH_YEAR <= year1 < year2
    ensures DaysSinceEpoch(year1, month, day) < DaysSinceEpoch(year2, month, day)
    decreases year2 - year1
  {
    DaysSinceEpochYearStep(year1, month, day);
    if year1 + 1 < year2 {
      DaysSinceEpochIncreasesWithYear(year1 + 1, year2, month, day);
    }
  }

  // The month formula compared with the Gregorian calendar.

  /** Days in zero-based month `month` of `year` (January is 0). */
  function GregorianMonthLength(year: nat, month: nat): nat
    requires month < 12
  {
    if month == 1 then (if IsLeapYear(year) then 29 else 28)
    else if month == 3 || month == 5 || month == 8 || month == 10 then 30
    else 31
  }

  /** Days in the months of `year` before zero-based month `month`. */
  function GregorianMonthDays(year: nat, month: nat): nat
    requires month <= 12
    decreases month
  {
    if month == 0 then 0 else GregorianMonthDays(year, month - 1) + GregorianMonthLength(year, month - 1)
  }

  /** `get_days_since_epoch` with the Gregorian month table in place of the 31/30 formula. */
  function GregorianDaysSinceEpoch(year: nat, month: nat, day: nat): nat
    requires year >= EPOCH_YEAR && month < 12
  {
    (year - EPOCH_YEAR) * 365 + LeapYearsBetween(EPOCH_YEAR, year) + GregorianMonthDays(year, month) + day
  }

  lemma GregorianYearHasYearLength(year: nat)
    ensures GregorianMonthDays(year, 12) == YearLength(year)
  {
  }

  /**
   * With the Gregorian table, the day after the last day of a month is the
   * first day of the next month, and the day after 31 December is
   * 1 January of the next year: the day count goes up by exactly one.
   */
  lemma GregorianDaysAreConsecutive(year: nat, month: nat)
    requires year >= EPOCH_YEAR && month < 12
    ensures month < 11 ==>
      GregorianDaysSinceEpoch(year, month, GregorianMonthLength(year, month) - 1) + 1
      == GregorianDaysSinceEpoch(year, month + 1, 0)
    ensures month == 11 ==>
      GregorianDaysSinceEpoch(year, month, GregorianMonthLength(year, month) - 1) + 1
      == GregorianDaysSinceEpoch(year + 1, 0, 0)
  {
    if month == 11 {
      GregorianYearHasYearLength(year);
      LeapYearsBetweenExtend(EPOCH_YEAR, year);
    }
  }

  /**
   * The source's formula runs ahead of the calendar: 1970-03-01 comes out
   * as day 61 instead of 59, and 1970-12-31 as day 366, one day after
   * 1971-01-01 (day 365), so the count goes backwards across the new year.
   * 31 August and 1 September share day 244, as do 31 October and
   * 1 November (day 305).
   */
  lemma DecemberOvertakesNextYear()
    ensures DaysSinceEpoch(1970, 2, 0) == 61 && GregorianDaysSinceEpoch(1970, 2, 0) == 59
    ensures DaysSinceEpoch(1970, 11, 30) == 366
    ensures DaysSinceEpoch(1971, 0, 0) == 365
    ensures DaysSinceEpoch(1970, 11, 30) > DaysSinceEpoch(1971, 0, 0)
    ensures DaysSinceEpoch(1970, 7, 30) == DaysSinceEpoch(1970, 8, 0) == 244
    ensures DaysSinceEpoch(1970, 9, 30) == DaysSinceEpoch(1970, 10, 0) == 305
  {
    assert LeapYearsBetween(EPOCH_YEAR, 1971) == 0;
  }
}

=== FILE: clock.dfy ===
/**
 * The CMOS clock source (src/mod.rs): `CMOSClock` reads the hardware once,
 * caches the seconds since the epoch, and answers every later query from
 * the cache, rescaled to the unit the caller asks for.
 *
 * The register snapshot taken after the update handshake is a parameter,
 * and the kernel's `TimestampScale::convert` is a function parameter.
 */
module Clock {
  import opened Options
  import Decoder

  /** Units of the kernel's `TimestampScale`. */
  datatype Scale = Second | Millisecond | Microsecond | Nanosecond

  /** `TimestampScale::convert(value, from, to)`. */
  type Rescale = (nat, Scale, Scale) -> nat

  /** `CMOSClock`: whether the century register exists, and the cached timestamp in seconds. */
  datatype CmosClock = CmosClock(centuryRegister: bool, timestamp: Option<nat>)

  /** The answer of `get_time`: the clock after the call and the time it returned. */
  datatype Reading = Reading(clock: CmosClock, time: nat)

  /** `CMOSClock::new`: an uninitialised clock. */
  function New(centuryRegister: bool): (c: CmosClock)
    ensures c.timestamp == None
    ensures HasCenturyRegister(c) == centuryRegister
  {
    CmosClock(centuryRegister, None)
  }

  /** `has_century_register`. */
  function HasCenturyRegister(c: CmosClock): bool
  {
    c.centuryRegister
  }

  /** An initialised clock ignores the hardware; an uninitialised one needs a decodable snapshot. */
  predicate CanInit(c: CmosClock, s: Decoder.Snapshot)
  {
    c.timestamp.Some? || Decoder.Decodable(s, c.centuryRegister)
  }

  /** `CMOSClock::init`: decode the snapshot once; do nothing if already initialised. */
  function Init(c: CmosClock, s: Decoder.Snapshot): (r: CmosClock)
    requires CanInit(c, s)
    ensures r.centuryRegister == c.centuryRegister
    ensures r.timestamp.Some?
    ensures c.timestamp.Some? ==> r == c
    ensures c.timestamp.None? ==> r.timestamp == Some(Decoder.Timestamp(s, c.centuryRegister))
  {
    if c.timestamp.Some? then c
    else c.(timestamp := Some(Decoder.Timestamp(s, c.centuryRegister)))
  }

  /** `get_time`: initialise if needed, then rescale the cached seconds. */
  function GetTime(c: CmosClock, s: Decoder.Snapshot, scale: Scale, convert: Rescale): (r: Reading)
    requires CanInit(c, s)
    ensures r.clock.centuryRegister == c.centuryRegister
    ensures r.clock.timestamp.Some?
    ensures c.timestamp.Some? ==> r.clock == c
    ensures c.timestamp.None? ==> r.clock == Init(c, s)
    ensures r.time == convert(r.clock.timestamp.value, Second, scale)
  {
    var initialised := if c.timestamp.None? then Init(c, s) else c;
    Reading(initialised, convert(initialised.timestamp.value, Second, scale))
  }

  /** The first query caches the timestamp decoded from the snapshot it sees. */
  lemma FirstQueryDecodesSnapshot(c: CmosClock, s: Decoder.Snapshot, scale: Scale, convert: Rescale)
    requires c.timestamp == None && Decoder.Decodable(s, c.centuryRegister)
    ensures GetTime(c, s, scale, convert).clock.timestamp == Some(Decoder.Timestamp(s, c.centuryRegister))
  {
  }

  /** No operation on the clock changes whether it has the century register. */
  lemma CenturyRegisterIsFixed(c: CmosClock, s: Decoder.Snapshot, scale: Scale, convert: Rescale)
    requires CanInit(c, s)
    ensures HasCenturyRegister(Init(c, s)) == HasCenturyRegister(c)
    ensures HasCenturyRegister(GetTime(c, s, scale, convert).clock) == HasCenturyRegister(c)
  {
  }

  /** `init` on an initialised clock changes nothing, whatever the hardware holds. */
  lemma InitIsIdempotent(c: CmosClock, s1: Decoder.Snapshot, s2: Decoder.Snapshot)
    requires CanInit(c, s1)
    ensures Init(Init(c, s1), s2) == Init(c, s1)
  {
  }

  /**
   * Cache once: after a query, a later query at any scale, whatever the
   * hardware holds by then, leaves the clock as it is and returns the same
   * cached seconds converted to the new scale. At the same scale it returns
   * the same value.
   */
  lemma {:induction false} QueriesShareOneReading(
    c: CmosClock, s1: Decoder.Snapshot, s2: Decoder.Snapshot,
    scale1: Scale, scale2: Scale, convert: Rescale)
    requires CanInit(c, s1)
    ensures var first := GetTime(c, s1, scale1, convert);
      var second := GetTime(first.clock, s2, scale2, convert);
      && second.clock == first.clock
      && second.time == convert(first.clock.timestamp.value, Second, scale2)
      && (scale1 == scale2 ==> second.time == first.time)
  {
  }

  /** Any number of further queries leave the clock of the first query unchanged. */
  lemma {:induction false} CacheNeverChanges(
    c: CmosClock, s: Decoder.Snapshot, later: seq<Decoder.Snapshot>, scale: Scale, convert: Rescale)
    requires CanInit(c, s)
    ensures var first := GetTime(c, s, scale, convert);
      Replay(first.clock, later, scale, convert) == first.clock
    decreases |later|
  {
    var first := GetTime(c, s, scale, convert);
    if |later| > 0 {
      CacheNeverChanges(first.clock, later[0], later[1..], scale, convert);
    }
  }

  /** The clock after a query on each snapshot of `snapshots` in turn. */
  function Replay(c: CmosClock, snapshots: seq<Decoder.Snapshot>, scale: Scale, convert: Rescale): CmosClock
    requires c.timestamp.Some?
    decreases |snapshots|
  {
    if |snapshots| == 0 then c
    else Replay(GetTime(c, snapshots[0], scale, convert).clock, snapshots[1..], scale, convert)
  }
}

=== FILE: decoder.dfy ===
/**
 * The register decode of `CMOSClock::init` (src/mod.rs): one coherent
 * snapshot of the time registers and status register B becomes a
 * seconds-since-epoch value.
 *
 * The source widens each byte to u32 before decoding; the widened values
 * are `nat` here. The hour alone goes through bit operations after its BCD
 * step (the PM bit is kept and tested), and every value it takes fits a
 * byte, so it stays a `bv8` until it is summed. Zero-basing, the century
 * and the final sum are on `nat`, with the u32 underflow and overflow cases
 * of the source as the precondition `Decodable`.
 */
module Decoder {
  import opened Registers
  import Calendar

  /** Status B bit: hours are in 24-hour format. */
  const FORMAT_24_FLAG: bv8 := 0x02
  /** Status B bit: registers hold binary values rather than BCD. */
  const FORMAT_BCD_FLAG: bv8 := 0x04
  /** Hour register bit: PM in 12-hour format. */
  const PM_FLAG: bv8 := 0x80

  /** Century assumed when the century register is not available. */
  const DEFAULT_CENTURY: nat := 20
  const SECONDS_PER_DAY: nat := 86400
  const U32_LIMIT: nat := 0x1_0000_0000

  /** The raw bytes read after the update handshake. */
  datatype Snapshot = Snapshot(
    second: bv8, minute: bv8, hour: bv8, day: bv8, month: bv8, year: bv8,
    century: bv8, statusB: bv8)

  /**
   * Reads the snapshot from the register file in the order of the source.
   * The century byte is only meaningful when the century register exists.
   */
  function ReadSnapshot(f: RegisterFile): (s: Snapshot)
    ensures s.second == f[0x00] && s.minute == f[0x02] && s.hour == f[0x04]
    ensures s.day == f[0x07] && s.month == f[0x08] && s.year == f[0x09]
    ensures s.century == f[0x32] && s.statusB == f[0x0b]
  {
    Snapshot(
      Read(f, SECOND_REGISTER), Read(f, MINUTE_REGISTER), Read(f, HOUR_REGISTER),
      Read(f, DAY_OF_MONTH_REGISTER), Read(f, MONTH_REGISTER), Read(f, YEAR_REGISTER),
      Read(f, CENTURY_REGISTER), Read(f, STATUS_B_REGISTER))
  }

  /** The fields after the BCD and 12-hour steps: still one-based, year still two-digit. */
  datatype Fields = Fields(
    second: nat, minute: nat, hour: bv8, day: nat, month: nat, year: nat, century: nat)

  /** The decoded date and time: zero-based day and month, full year. */
  datatype DateTime = DateTime(
    second: nat, minute: nat, hour: nat, day: nat, month: nat, year: nat)

  /** BCD to binary on the widened byte, `(v & 0x0f) + (v / 16) * 10`. */
  function BcdToBinary(v: bv8): (r: nat)
    ensures r == v as int % 16 + (v as int / 16) * 10
    ensures r <= 165
  {
    NibbleValues(v);
    (v & 0x0F) as nat + (v / 16) as nat * 10
  }

  /** The nibble of a decimal digit. */
  function Digit(d: nat): (b: bv8)
    requires d < 10
    ensures b < 10 && b as int == d
  {
    match d
    case 0 => 0 case 1 => 1 case 2 => 2 case 3 => 3 case 4 => 4
    case 5 => 5 case 6 => 6 case 7 => 7 case 8 => 8 case _ => 9
  }

  lemma DigitOfNibble(b: bv8)
    requires b < 10
    ensures Digit(b as int) == b
  {
    if b == 0 {} else if b == 1 {} else if b == 2 {} else if b == 3 {} else if b == 4 {}
    else if b == 5 {} else if b == 6 {} else if b == 7 {} else if b == 8 {} else {}
  }

  /** Two-digit BCD encoding of `n`, the inverse of `BcdToBinary`. */
  function BcdEncode(n: nat): (v: bv8)
    requires n < 100
    ensures v & 0x0F == Digit(n % 10) && v / 16 == Digit(n / 10)
  {
    Digit(n / 10) * 16 + Digit(n % 10)
  }

  /** A byte both of whose nibbles are decimal digits. */
  predicate IsBcd(v: bv8)
  {
    v & 0x0F < 10 && v / 16 < 10
  }

  lemma {:induction false} BcdRoundTrip(n: nat)
    requires n < 100
    ensures IsBcd(BcdEncode(n))
    ensures BcdToBinary(BcdEncode(n)) == n
  {
    var v := BcdEncode(n);
    NibbleValues(v);
    assert (v & 0x0F) as int == n % 10 && (v / 16) as int == n / 10;
  }

  lemma {:induction false} BcdRoundTripFromByte(v: bv8)
    requires IsBcd(v)
    ensures BcdToBinary(v) < 100
    ensures BcdEncode(BcdToBinary(v)) == v
  {
    NibbleValues(v);
    var n := BcdToBinary(v);
    assert n / 10 == (v / 16) as int && n % 10 == (v & 0x0F) as int;
    DigitOfNibble(v / 16);
    DigitOfNibble(v & 0x0F);
    var w := BcdEncode(n);
    assert w & 0x0F == v & 0x0F && w / 16 == v / 16;
  }

  lemma NibbleValues(v: bv8)
    ensures (v & 0x0F) as int == v as int % 16
    ensures (v / 16) as int == v as int / 16
  {
  }

  /**
   * BCD decode of the hour register: the low seven bits are decoded as BCD
   * and the PM bit 0x80 is carried over unchanged.
   */
  function BcdHour(h: bv8): (r: bv8)
    ensures r & PM_FLAG == h & PM_FLAG
    ensures (r & 0x7F) as int == BcdToBinary(h & 0x7F)
  {
    var r := ((h & 0x0F) + ((h & 0x70) / 16) * 10) | (h & PM_FLAG);
    BcdHourLowBits(h, r);
    r
  }

  lemma BcdHourLowBits(h: bv8, r: bv8)
    requires r == ((h & 0x0F) + ((h & 0x70) / 16) * 10) | (h & PM_FLAG)
    ensures (r & 0x7F) as int == BcdToBinary(h & 0x7F)
  {
    var lo := h & 0x0F;
    var hi := (h & 0x70) / 16;
    assert r & 0x7F == lo + hi * 10;
    SmallSum(lo, hi);
    NibbleValues(h & 0x7F);
    assert (h & 0x7F) & 0x0F == lo && (h & 0x7F) / 16 == hi;
  }

  /** A digit plus ten times a digit up to 7 does not wrap a byte. */
  lemma SmallSum(lo: bv8, hi: bv8)
    requires lo <= 15 && hi <= 7
    ensures (lo + hi * 10) as int == lo as int + hi as int * 10
  {
    if hi == 0 {} else if hi == 1 {} else if hi == 2 {} else if hi == 3 {}
    else if hi == 4 {} else if hi == 5 {} else if hi == 6 {} else {}
  }

  /** The BCD step: applied only when status B says the registers are BCD. */
  function BcdStep(s: Snapshot, centuryRegister: bool): (f: Fields)
    ensures s.statusB & FORMAT_BCD_FLAG != 0 ==>
      f == Fields(s.second as nat, s.minute as nat, s.hour, s.day as nat, s.month as nat,
                  s.year as nat, if centuryRegister then s.century as nat else DEFAULT_CENTURY)
    ensures s.statusB & FORMAT_BCD_FLAG == 0 ==>
      f.second == BcdToBinary(s.second) && f.minute == BcdToBinary(s.minute)
      && f.day == BcdToBinary(s.day) && f.month == BcdToBinary(s.month)
      && f.year == BcdToBinary(s.year)
      && f.hour == BcdHour(s.hour)
      && f.hour & PM_FLAG == s.hour & PM_FLAG
      && f.century == if centuryRegister then BcdToBinary(s.century) else DEFAULT_CENTURY
  {
    var century := if centuryRegister then s.century as nat else DEFAULT_CENTURY;
    if s.statusB & FORMAT_BCD_FLAG == 0 then
      Fields(
        BcdToBinary(s.second), BcdToBinary(s.minute), BcdHour(s.hour),
        BcdToBinary(s.day), BcdToBinary(s.month), BcdToBinary(s.year),
        if centuryRegister then BcdToBinary(s.century) else century)
    else
      Fields(s.second as nat, s.minute as nat, s.hour, s.day as nat, s.month as nat,
             s.year as nat, century)
  }

  /**
   * The 12-hour step: in 12-hour format a PM hour becomes
   * `((hour & 0x7f) + 12) % 24`; every other hour is left as it is.
   */
  function To24Hour(hour: bv8, statusB: bv8): (r: bv8)
    ensures statusB & FORMAT_24_FLAG == 0 && hour & PM_FLAG != 0 ==>
      r < 24 && r % 12 == (hour & 0x7F) % 12
      && (1 <= hour & 0x7F < 12 ==> r == (hour & 0x7F) + 12)
      && (hour & 0x7F == 12 ==> r == 0)
    ensures !(statusB & FORMAT_24_FLAG == 0 && hour & PM_FLAG != 0) ==> r == hour
  {
    if statusB & FORMAT_24_FLAG == 0 && hour & PM_FLAG != 0 then
      ((hour & 0x7F) + 12) % 24
    else
      hour
  }

  /** The BCD step followed by the 12-hour step. */
  function Convert(s: Snapshot, centuryRegister: bool): (f: Fields)
    ensures f.(hour := 0) == BcdStep(s, centuryRegister).(hour := 0)
    ensures s.statusB & FORMAT_24_FLAG != 0 ==> f.hour == BcdStep(s, centuryRegister).hour
    ensures s.statusB & FORMAT_24_FLAG == 0 ==> f.hour & PM_FLAG == 0
    ensures s.statusB & FORMAT_24_FLAG == 0 && s.hour & PM_FLAG != 0 ==> f.hour < 24
    ensures s.statusB & FORMAT_24_FLAG == 0 && s.hour & PM_FLAG == 0 ==> f.hour == BcdStep(s, centuryRegister).hour
    ensures f.hour == To24Hour(BcdStep(s, centuryRegister).hour, s.statusB)
  {
    var f := BcdStep(s, centuryRegister);
    f.(hour := To24Hour(f.hour, s.statusB))
  }

  /** Zero-base day and month and add the century to the year. */
  function ToDateTime(f: Fields): (dt: DateTime)
    requires f.day >= 1 && f.month >= 1
    ensures dt.day + 1 == f.day && dt.month + 1 == f.month
    ensures dt.year % 100 == f.year % 100 && dt.year / 100 == f.century + f.year / 100
    ensures dt.second == f.second && dt.minute == f.minute && dt.hour == f.hour as nat
  {
    DateTime(f.second, f.minute, f.hour as nat, f.day - 1, f.month - 1, f.year + f.century * 100)
  }

  /**
   * The snapshots the source's u32 arithmetic decodes without underflow or
   * overflow: decoded day and month at least 1, a year from 1970 on, and a
   * day count whose product with 86400 fits a u32.
   */
  predicate Decodable(s: Snapshot, centuryRegister: bool)
    ensures Decodable(s, centuryRegister) ==>
      var f := Convert(s, centuryRegister);
      && f.day >= 1 && f.month >= 1
      && var dt := ToDateTime(f);
      && dt.year >= Calendar.EPOCH_YEAR && Calendar.DaysSinceEpoch(dt.year, dt.month, dt.day) <= 49710
  {
    var f := Convert(s, centuryRegister);
    && f.day >= 1 && f.month >= 1
    && var dt := ToDateTime(f);
    && dt.year >= Calendar.EPOCH_YEAR
    && Calendar.DaysSinceEpoch(dt.year, dt.month, dt.day) * SECONDS_PER_DAY < U32_LIMIT
  }

  function Decode(s: Snapshot, centuryRegister: bool): (dt: DateTime)
    requires Decodable(s, centuryRegister)
    ensures dt.day + 1 == Convert(s, centuryRegister).day && dt.month + 1 == Convert(s, centuryRegister).month
    ensures dt.year >= Calendar.EPOCH_YEAR
    ensures Calendar.DaysSinceEpoch(dt.year, dt.month, dt.day) * SECONDS_PER_DAY < U32_LIMIT
    ensures var f := Convert(s, centuryRegister);
      && dt.year == f.year + f.century * 100
      && dt.second == f.second && dt.minute == f.minute && dt.hour == f.hour as nat
  {
    ToDateTime(Convert(s, centuryRegister))
  }

  /** The final sum of `init`. */
  function SecondsSinceEpoch(dt: DateTime): (t: nat)
    requires dt.year >= Calendar.EPOCH_YEAR
    ensures dt.hour < 24 && dt.minute < 60 && dt.second < 60 ==>
      t / SECONDS_PER_DAY == Calendar.DaysSinceEpoch(dt.year, dt.month, dt.day)
      && t % SECONDS_PER_DAY == dt.hour * 3600 + dt.minute * 60 + dt.second
  {
    Calendar.DaysSinceEpoch(dt.year, dt.month, dt.day) * SECONDS_PER_DAY
    + dt.hour * 3600 + dt.minute * 60 + dt.second
  }

  /** The value `init` caches. */
  function Timestamp(s: Snapshot, centuryRegister: bool): (t: nat)
    requires Decodable(s, centuryRegister)
    ensures t < U32_LIMIT + 255 * 3600 + 255 * 60 + 255
  {
    SecondsSinceEpoch(Decode(s, centuryRegister))
  }

  /**
   * With a well-formed time of day, the timestamp splits back into the day
   * count (quotient by 86400) and the seconds into the day (remainder).
   */
  lemma {:induction false} TimestampSplits(s: Snapshot, centuryRegister: bool)
    requires Decodable(s, centuryRegister)
    requires var dt := Decode(s, centuryRegister); dt.hour < 24 && dt.minute < 60 && dt.second < 60
    ensures var dt := Decode(s, centuryRegister);
      && Timestamp(s, centuryRegister) / SECONDS_PER_DAY == Calendar.DaysSinceEpoch(dt.year, dt.month, dt.day)
      && Timestamp(s, centuryRegister) % SECONDS_PER_DAY == dt.hour * 3600 + dt.minute * 60 + dt.second
  {
    var dt := Decode(s, centuryRegister);
    var days := Calendar.DaysSinceEpoch(dt.year, dt.month, dt.day);
    var tod := dt.hour * 3600 + dt.minute * 60 + dt.second;
    assert tod < SECONDS_PER_DAY;
    assert Timestamp(s, centuryRegister) == days * SECONDS_PER_DAY + tod;
  }

  // Encoding: what a clock in BCD and 24-hour mode holds for a given date and time.

  /** A date and time the registers can hold: year 1970 to 9999, two BCD digits per field. */
  predicate Representable(dt: DateTime)
  {
    && dt.second < 60 && dt.minute < 60 && dt.hour < 24
    && dt.day < 31 && dt.month < 12
    && Calendar.EPOCH_YEAR <= dt.year < 10000
  }

  /** Register contents for `dt` in BCD, 24-hour mode (status B = 0x02). */
  function Encode(dt: DateTime): Snapshot
    requires Representable(dt)
  {
    Snapshot(
      BcdEncode(dt.second), BcdEncode(dt.minute), BcdEncode(dt.hour),
      BcdEncode(dt.day + 1), BcdEncode(dt.month + 1), BcdEncode(dt.year % 100),
      BcdEncode(dt.year / 100), FORMAT_24_FLAG)
  }

  lemma SmallBcdHasNoPmBit(n: nat)
    requires n < 80
    ensures BcdEncode(n) & PM_FLAG == 0
    ensures BcdEncode(n) & 0x7F == BcdEncode(n)
  {
    var t := n / 10;
    assert Digit(t) <= 7 by {
      if t == 0 {} else if t == 1 {} else if t == 2 {} else if t == 3 {}
      else if t == 4 {} else if t == 5 {} else if t == 6 {} else {}
    }
  }

  /**
   * Decoding inverts encoding: the BCD step, the 12-hour step and the
   * zero-basing give back every field of the date and time.
   */
  lemma {:induction false} DecodeInvertsEncode(dt: DateTime)
    requires Representable(dt)
    ensures Convert(Encode(dt), true).day >= 1 && Convert(Encode(dt), true).month >= 1
    ensures ToDateTime(Convert(Encode(dt), true)) == dt
  {
    BcdStepOfEncode(dt);
    EncodedHourDecodes(dt.hour);
    var s := Encode(dt);
    assert s.statusB == FORMAT_24_FLAG;
    var f := Convert(s, true);
    assert f.hour == To24Hour(BcdHour(BcdEncode(dt.hour)), FORMAT_24_FLAG);
    assert f.hour as int == dt.hour;
    assert f.day == dt.day + 1 && f.month == dt.month + 1;
    assert f.year + f.century * 100 == dt.year;
  }

  lemma {:induction false} BcdStepOfEncode(dt: DateTime)
    requires Representable(dt)
    ensures BcdStep(Encode(dt), true)
            == Fields(dt.second, dt.minute, BcdHour(BcdEncode(dt.hour)), dt.day + 1, dt.month + 1,
                      dt.year % 100, dt.year / 100)
  {
    BcdRoundTrip(dt.second);
    BcdRoundTrip(dt.minute);
    BcdRoundTrip(dt.day + 1);
    BcdRoundTrip(dt.month + 1);
    BcdRoundTrip(dt.year % 100);
    BcdRoundTrip(dt.year / 100);
    assert Encode(dt).statusB & FORMAT_BCD_FLAG == 0;
  }

  /** An hour in BCD and 24-hour format decodes to itself. */
  lemma {:induction false} EncodedHourDecodes(hour: nat)
    requires hour < 24
    ensures To24Hour(BcdHour(BcdEncode(hour)), FORMAT_24_FLAG) as int == hour
  {
    BcdRoundTrip(hour);
    SmallBcdHasNoPmBit(hour);
    var r := BcdHour(BcdEncode(hour));
    assert r & PM_FLAG == 0;
    assert r == r & 0x7F;
  }

  /**
   * The u32 product of the day count and 86400 fits for every date from
   * 1970 to the end of 2105.
   */
  lemma {:induction false} DatesBefore2106Fit(dt: DateTime)
    requires Representable(dt) && dt.year < 2106
    ensures Calendar.DaysSinceEpoch(dt.year, dt.month, dt.day) * SECONDS_PER_DAY < U32_LIMIT
  {
    Calendar.DaysSinceEpochBefore2106(dt.year, dt.month, dt.day);
  }

  /**
   * The last date whose product fits is 2106-02-07 (day 49710); from
   * 2106-02-08 on the product overflows and the snapshot is not decodable.
   */
  lemma LastDecodableDate()
    ensures Decodable(Snapshot(0x00, 0x00, 0x00, 0x07, 0x02, 0x06, 0x21, FORMAT_24_FLAG), true)
    ensures !Decodable(Snapshot(0x00, 0x00, 0x00, 0x08, 0x02, 0x06, 0x21, FORMAT_24_FLAG), true)
  {
    assert Calendar.LeapYearsBetween(Calendar.EPOCH_YEAR, 2106) == 33;
    var last := Snapshot(0x00, 0x00, 0x00, 0x07, 0x02, 0x06, 0x21, FORMAT_24_FLAG);
    var next := last.(day := 0x08);
    assert BcdStep(last, true) == Fields(0, 0, 0x00, 7, 2, 6, 21);
    assert BcdStep(next, true) == Fields(0, 0, 0x00, 8, 2, 6, 21);
    assert ToDateTime(Convert(last, true)) == DateTime(0, 0, 0, 6, 1, 2106);
    assert ToDateTime(Convert(next, true)) == DateTime(0, 0, 0, 7, 1, 2106);
    assert Calendar.DaysSinceEpoch(2106, 1, 6) == 49710;
    assert Calendar.DaysSinceEpoch(2106, 1, 7) == 49711;
  }

  /** Registers holding a date and time before 2106 decode to that date's timestamp. */
  lemma {:induction false} TimestampOfEncode(dt: DateTime)
    requires Representable(dt) && dt.year < 2106
    ensures Decodable(Encode(dt), true)
    ensures Timestamp(Encode(dt), true) == SecondsSinceEpoch(dt)
  {
    DecodeInvertsEncode(dt);
    DatesBefore2106Fit(dt);
  }

  /** In binary mode with 24-hour format, the registers are taken as they are. */
  lemma BinaryModeTakesRawValues(s: Snapshot, centuryRegister: bool)
    requires s.statusB & FORMAT_BCD_FLAG != 0 && s.statusB & FORMAT_24_FLAG != 0
    ensures Convert(s, centuryRegister)
            == Fields(s.second as nat, s.minute as nat, s.hour, s.day as nat, s.month as nat,
                      s.year as nat, if centuryRegister then s.century as nat else DEFAULT_CENTURY)
  {
  }

  /** Raw PM hour 2 (0x82) in 12-hour BCD mode is 14; seconds 0x45 and minutes 0x30 are 45 and 30. */
  lemma TwoPmExample()
    ensures var f := Convert(Snapshot(0x45, 0x30, 0x82, 0x01, 0x01, 0x24, 0x20, 0x00), false);
      f.hour == 14 && f.minute == 30 && f.second == 45
  {
  }

  /** 2024-01-01 00:00:00, BCD and 24-hour, with or without the century register. */
  lemma FirstOfJanuary2024Example(centuryRegister: bool)
    ensures var s := Snapshot(0x00, 0x00, 0x00, 0x01, 0x01, 0x24, 0x20, FORMAT_24_FLAG);
      Decodable(s, centuryRegister) && Timestamp(s, centuryRegister) == 1704067200
  {
    var s := Snapshot(0x00, 0x00, 0x00, 0x01, 0x01, 0x24, 0x20, FORMAT_24_FLAG);
    assert BcdStep(s, centuryRegister) == Fields(0, 0, 0x00, 1, 1, 24, 20);
    var f := Convert(s, centuryRegister);
    assert f == Fields(0, 0, 0x00, 1, 1, 24, 20);
    assert ToDateTime(f) == DateTime(0, 0, 0, 0, 0, 2024);
    Calendar.FirstOfJanuary2024();
  }

  // The 12-hour conversion compared with the 12-hour clock.

  /**
   * The source's conversion swaps noon and midnight: 12 PM (0x92) becomes
   * hour 0 and 12 AM (0x12) stays hour 12.
   */
  lemma TwelveOClockSwapped()
    ensures To24Hour(BcdHour(0x92), 0x00) == 0
    ensures To24Hour(BcdHour(0x12), 0x00) == 12
  {
  }

  /** The 12-hour BCD hour byte for hour `h` of the day: 1 to 12, with the PM bit from noon on. */
  function EncodeTwelveHour(h: nat): bv8
    requires h < 24
  {
    BcdEncode(if h % 12 == 0 then 12 else h % 12) | (if h >= 12 then PM_FLAG else 0)
  }

  lemma {:induction false} DecodeTwelveHour(h: nat)
    requires h < 24
    ensures var r := BcdHour(EncodeTwelveHour(h));
      && (r & PM_FLAG != 0 <==> h >= 12)
      && (r & 0x7F) as int == (if h % 12 == 0 then 12 else h % 12)
  {
    var h12 := if h % 12 == 0 then 12 else h % 12;
    BcdRoundTrip(h12);
    SmallBcdHasNoPmBit(h12);
    var v := EncodeTwelveHour(h);
    assert v & 0x7F == BcdEncode(h12);
    assert v & PM_FLAG != 0 <==> h >= 12;
  }

  /**
   * 12-hour round trip: every hour of the day written in 12-hour BCD form
   * decodes to itself, except midnight and noon, which trade places.
   */
  lemma {:induction false} TwelveHourRoundTrip(h: nat)
    requires h < 24
    ensures h % 12 != 0 ==> To24Hour(BcdHour(EncodeTwelveHour(h)), 0x00) as int == h
    ensures h % 12 == 0 ==> To24Hour(BcdHour(EncodeTwelveHour(h)), 0x00) as int == 12 - h
  {
    DecodeTwelveHour(h);
    var r := BcdHour(EncodeTwelveHour(h));
    if h < 12 {
      assert To24Hour(r, 0x00) == r;
      assert r == r & 0x7F;
    } else {
      var low := r & 0x7F;
      assert To24Hour(r, 0x00) == (low + 12) % 24;
      if h == 12 {
        assert low == 12;
      } else {
        assert low as int == h - 12;
        assert 1 <= low < 12;
      }
    }
  }

  /** Conversion on the 12-hour clock, where hours run from 1 to 12. */
  function To24HourIntended(hour: bv8, statusB: bv8): bv8
  {
    if statusB & FORMAT_24_FLAG != 0 then hour
    else if hour & PM_FLAG != 0 then (hour & 0x7F) % 12 + 12
    else (hour & 0x7F) % 12
  }

  /**
   * For every 12-hour reading h (1 to 12) the intended conversion gives
   * h mod 12 in the morning and h mod 12 + 12 in the afternoon, and it
   * agrees with the source for every hour except 12.
   */
  lemma {:induction false} IntendedTwelveHourRoundTrip(h: nat)
    requires h < 24
    ensures To24HourIntended(BcdHour(EncodeTwelveHour(h)), 0x00) as int == h
  {
    DecodeTwelveHour(h);
    var r := BcdHour(EncodeTwelveHour(h));
    var low := r & 0x7F;
    if h >= 12 {
      assert To24HourIntended(r, 0x00) == low % 12 + 12;
    } else {
      assert To24HourIntended(r, 0x00) == low % 12;
    }
  }

  lemma IntendedTwelveHourClock(h: bv8, pm: bool)
    requires 1 <= h <= 12
    ensures var raw := if pm then h | PM_FLAG else h;
      && To24HourIntended(raw, 0x00) as int == h as int % 12 + (if pm then 12 else 0)
      && (h != 12 ==> To24HourIntended(raw, 0x00) == To24Hour(raw, 0x00))
  {
  }
}

=== FILE: floppy.dfy ===
/**
 * Floppy drive types from CMOS register 0x10 (src/mod.rs): the high nibble
 * describes the master drive and the low nibble the slave drive.
 */
module Floppy {
  import opened Registers

  datatype DriveType =
    | NoDrive
    | Type360kb525   // 360KB, 5.25 inches
    | Type1200kb525  // 1200KB, 5.25 inches
    | Type720kb350   // 720KB, 3.5 inches
    | Type1440kb350  // 1440KB, 3.5 inches
    | Type2880kb350  // 2880KB, 3.5 inches

  datatype FloppyDrives = FloppyDrives(master: DriveType, slave: DriveType)

  /** `floppy_type_from_number`: codes 1 to 5 name a drive, anything else is no drive. */
  function TypeFromNumber(n: bv8): (t: DriveType)
    ensures t == NoDrive <==> !(1 <= n <= 5)
  {
    match n
    case 1 => Type360kb525
    case 2 => Type1200kb525
    case 3 => Type720kb350
    case 4 => Type1440kb350
    case 5 => Type2880kb350
    case _ => NoDrive
  }

  /** The code of a drive type, 0 for no drive. */
  function TypeNumber(t: DriveType): (n: bv8)
    ensures n <= 5 && (n == 0 <==> t == NoDrive)
  {
    match t
    case NoDrive => 0
    case Type360kb525 => 1
    case Type1200kb525 => 2
    case Type720kb350 => 3
    case Type1440kb350 => 4
    case Type2880kb350 => 5
  }

  /** Every drive type is named by its code, and codes 1 to 5 are named by one type each. */
  lemma TypeNumberRoundTrip(t: DriveType, n: bv8)
    ensures TypeFromNumber(TypeNumber(t)) == t
    ensures 1 <= n <= 5 ==> TypeNumber(TypeFromNumber(n)) == n
  {
  }

  /** Distinct codes in 1 to 5 name distinct drive types. */
  lemma TypeFromNumberInjective(m: bv8, n: bv8)
    requires 1 <= m <= 5 && 1 <= n <= 5 && m != n
    ensures TypeFromNumber(m) != TypeFromNumber(n)
  {
    TypeNumberRoundTrip(NoDrive, m);
    TypeNumberRoundTrip(NoDrive, n);
  }

  /** The nibble split of `get_floppy_type`. */
  function DecodeDrives(state: bv8): (d: FloppyDrives)
    ensures TypeNumber(d.master) == (if state >> 4 <= 5 && state >> 4 != 0 then state >> 4 else 0)
    ensures TypeNumber(d.slave) == (if state & 0xF <= 5 && state & 0xF != 0 then state & 0xF else 0)
  {
    var masterState := (state >> 4) & 0xF;
    var slaveState := state & 0xF;
    TypeNumberRoundTrip(NoDrive, masterState);
    TypeNumberRoundTrip(NoDrive, slaveState);
    FloppyDrives(TypeFromNumber(masterState), TypeFromNumber(slaveState))
  }

  /** `get_floppy_type`: reads register 0x10 and splits it. */
  function GetFloppyType(f: RegisterFile): (d: FloppyDrives)
    ensures d.master == TypeFromNumber(f[0x10] >> 4) && d.slave == TypeFromNumber(f[0x10] & 0xF)
  {
    DecodeDrives(Read(f, FLOPPY_DRIVE_REGISTER))
  }

  /** The register byte describing `d`. */
  function EncodeDrives(d: FloppyDrives): bv8
  {
    (TypeNumber(d.master) << 4) | TypeNumber(d.slave)
  }

  /** Decoding the byte that describes a pair of drives gives that pair back. */
  lemma {:induction false} DecodeInvertsEncode(d: FloppyDrives)
    ensures DecodeDrives(EncodeDrives(d)) == d
  {
    var b := EncodeDrives(d);
    assert (b >> 4) & 0xF == TypeNumber(d.master);
    assert b & 0xF == TypeNumber(d.slave);
    TypeNumberRoundTrip(d.master, 0);
    TypeNumberRoundTrip(d.slave, 0);
  }

  /** The drives read from a register file are those the register 0x10 byte describes. */
  lemma {:induction false} GetFloppyTypeReadsRegister(f: RegisterFile, d: FloppyDrives)
    requires f[0x10] == EncodeDrives(d)
    ensures GetFloppyType(f) == d
  {
    DecodeInvertsEncode(d);
  }
}

=== FILE: options.dfy ===
/** Option and Result, standing in for Rust's `Option<T>` and `Result<T, E>`. */
module Options {

  datatype Option<+T> = None | Some(value: T)

  datatype Result<+T, +E> = Ok(value: T) | Err(error: E)
}

=== FILE: registers.dfy ===
/**
 * The CMOS register file as seen through the select port (0x70) and the
 * value port (0x71): 128 byte-wide registers addressed by the low seven
 * bits of the byte written to the select port. The top bit of that byte
 * masks NMIs in hardware and does not take part in addressing.
 */
module Registers {

  const SECOND_REGISTER: bv8 := 0x00
  const MINUTE_REGISTER: bv8 := 0x02
  const HOUR_REGISTER: bv8 := 0x04
  const DAY_OF_MONTH_REGISTER: bv8 := 0x07
  const MONTH_REGISTER: bv8 := 0x08
  const YEAR_REGISTER: bv8 := 0x09
  const CENTURY_REGISTER: bv8 := 0x32
  const STATUS_A_REGISTER: bv8 := 0x0a
  const STATUS_B_REGISTER: bv8 := 0x0b
  const STATUS_C_REGISTER: bv8 := 0x0c
  const FLOPPY_DRIVE_REGISTER: bv8 := 0x10

  /** Top bit of a select byte (NMI disable); not part of the register index. */
  const NMI_DISABLE: bv8 := 0x80

  type Index = i: int | 0 <= i < 0x80

  type RegisterFile = f: seq<bv8> | |f| == 0x80 witness seq(0x80, _ => 0)

  /** The register a select byte addresses. */
  function Selected(select: bv8): (i: Index)
    ensures i == select as int % 0x80
  {
    (select & 0x7F) as int
  }

  /** `read(reg)`: select `0x80 | reg`, then read the value port. */
  function Read(f: RegisterFile, reg: bv8): (v: bv8)
    ensures reg < 0x80 ==> v == f[reg as int]
  {
    f[Selected(NMI_DISABLE | reg)]
  }

  /** Select with `select`, then write `v` to the value port. */
  function Write(f: RegisterFile, select: bv8, v: bv8): (g: RegisterFile)
    ensures g[Selected(select)] == v
    ensures forall i :: 0 <= i < 0x80 && i != Selected(select) ==> g[i] == f[i]
  {
    f[Selected(select) := v]
  }
}

=== FILE: rtc.dfy ===
/**
 * The periodic interrupt of the real-time clock (src/rtc.rs): status
 * register B bit 6 enables the periodic interrupt, the low nibble of status
 * register A selects its rate, and reading status register C acknowledges
 * a firing so that the next one can come. Each firing advances a
 * fixed-point timestamp by 125.
 *
 * The device is a register file plus the log of registers read through
 * the value port; the shared timestamp is a plain counter updated
 * atomically, and the registration handle is the `RTC_HANDLE` cell.
 */
module Rtc {
  import opened Options
  import opened Registers

  /** Status B bit 6: periodic interrupt enable. */
  const PERIODIC_ENABLE: bv8 := 0x40
  /** Rate select 6: 1024 Hz. */
  const RATE_1024_HZ: bv8 := 6
  /** Added to the fixed-point timestamp on every firing. */
  const TICK_INCREMENT: nat := 125

  /** The registration handle returned by the kernel's `register_callback`. */
  datatype Handle = Handle(id: nat)

  datatype Errno = Errno(code: int)

  datatype InterruptAction = Resume

  /** `InterruptResult::new(skip, action)`. */
  datatype InterruptResult = InterruptResult(skip: bool, action: InterruptAction)

  datatype Rtc = Rtc(
    regs: RegisterFile,
    readLog: seq<Index>,      // registers read through the value port, oldest first
    timestamp: nat,           // the fixed-point timestamp the handler advances
    handle: Option<Handle>)   // RTC_HANDLE

  /** Bit `i` of `b`. */
  predicate Bit(b: bv8, i: nat)
    requires i < 8
  {
    (b >> i) & 1 == 1
  }

  /** Status B with the periodic interrupt enabled, `prev | 0x40`. */
  function EnableByte(prev: bv8): (b: bv8)
    ensures Bit(b, 6)
    ensures forall i: nat :: i < 8 && i != 6 ==> Bit(b, i) == Bit(prev, i)
  {
    prev | PERIODIC_ENABLE
  }

  /** Status A with the 1024 Hz rate, `(prev & 0xf0) | 6`. */
  function RateByte(prev: bv8): (b: bv8)
    ensures b & 0xF0 == prev & 0xF0
    ensures b & 0x0F == RATE_1024_HZ
  {
    (prev & 0xF0) | RATE_1024_HZ
  }

  /** Status B with the periodic interrupt disabled, `prev & !0x40`. */
  function DisableByte(prev: bv8): (b: bv8)
    ensures !Bit(b, 6)
    ensures forall i: nat :: i < 8 && i != 6 ==> Bit(b, i) == Bit(prev, i)
  {
    prev & !PERIODIC_ENABLE
  }

  /** Enabling twice is enabling once. */
  lemma EnableIsIdempotent(prev: bv8)
    ensures EnableByte(EnableByte(prev)) == EnableByte(prev)
  {
  }

  /** Disabling after enabling is disabling: every bit but bit 6 is as it was. */
  lemma EnableThenDisable(prev: bv8)
    ensures DisableByte(EnableByte(prev)) == DisableByte(prev)
    ensures forall i: nat :: i < 8 && i != 6 ==> Bit(DisableByte(EnableByte(prev)), i) == Bit(prev, i)
  {
  }

  /** Select `select` and read the value port. */
  function ReadRegister(dev: Rtc, select: bv8): (r: (Rtc, bv8))
    ensures r.1 == dev.regs[select as int % 0x80]
    ensures r.0.regs == dev.regs && r.0.timestamp == dev.timestamp && r.0.handle == dev.handle
    ensures r.0.readLog == dev.readLog + [select as int % 0x80]
  {
    (dev.(readLog := dev.readLog + [Selected(select)]), dev.regs[Selected(select)])
  }

  /** Select `select` and write `v` to the value port. */
  function WriteRegister(dev: Rtc, select: bv8, v: bv8): (r: Rtc)
    ensures r.regs[select as int % 0x80] == v
    ensures forall i :: 0 <= i < 0x80 && i != select as int % 0x80 ==> r.regs[i] == dev.regs[i]
    ensures r.readLog == dev.readLog && r.timestamp == dev.timestamp && r.handle == dev.handle
  {
    dev.(regs := Write(dev.regs, select, v))
  }

  /**
   * Read register `reg` with the select byte `reg | 0x80`, select it again
   * and write `update(prev)` back.
   */
  function ReadModifyWrite(dev: Rtc, reg: bv8, update: bv8 -> bv8): (r: Rtc)
    requires reg < 0x80
    ensures r.regs[reg as int] == update(dev.regs[reg as int])
    ensures forall i :: 0 <= i < 0x80 && i != reg as int ==> r.regs[i] == dev.regs[i]
    ensures r.readLog == dev.readLog + [reg as int]
    ensures r.timestamp == dev.timestamp && r.handle == dev.handle
  {
    var (afterRead, prev) := ReadRegister(dev, reg | NMI_DISABLE);
    WriteRegister(afterRead, reg | NMI_DISABLE, update(prev))
  }

  /** `reset`: read status C (select byte 0x0C) to allow the next interrupt. */
  function Reset(dev: Rtc): (r: Rtc)
    ensures r.regs == dev.regs && r.timestamp == dev.timestamp && r.handle == dev.handle
    ensures r.readLog == dev.readLog + [STATUS_C_REGISTER as int]
  {
    ReadRegister(dev, STATUS_C_REGISTER).0
  }

  /** The register programming of `init`: enable, rate 1024 Hz, acknowledge. */
  function Arm(dev: Rtc): (r: Rtc)
    ensures r.regs[0x0b] == EnableByte(dev.regs[0x0b])
    ensures r.regs[0x0a] == RateByte(dev.regs[0x0a])
    ensures forall i :: 0 <= i < 0x80 && i != 0x0a && i != 0x0b ==> r.regs[i] == dev.regs[i]
    ensures r.readLog == dev.readLog + [0x0b, 0x0a, 0x0c]
    ensures r.timestamp == dev.timestamp && r.handle == dev.handle
  {
    var enabled := ReadModifyWrite(dev, STATUS_B_REGISTER, EnableByte);
    var rated := ReadModifyWrite(enabled, STATUS_A_REGISTER, RateByte);
    Reset(rated)
  }

  /**
   * `init`: program the device, then register the handler. The outcome of
   * the registration is a parameter. The handle is stored only on success;
   * on failure the error is returned and the handle is left alone. The
   * device is programmed in both cases.
   */
  function Init(dev: Rtc, registration: Result<Handle, Errno>): (r: (Rtc, Result<(), Errno>))
    ensures r.0.regs == Arm(dev).regs && r.0.readLog == Arm(dev).readLog
    ensures r.0.timestamp == dev.timestamp
    ensures registration.Ok? ==> r.1 == Ok(()) && r.0.handle == Some(registration.value)
    ensures registration.Err? ==> r.1 == Err(registration.error) && r.0.handle == dev.handle
  {
    var armed := Arm(dev);
    match registration
    case Err(e) => (armed, Err(e))
    case Ok(h) => (armed.(handle := Some(h)), Ok(()))
  }

  /** The interrupt handler: advance the timestamp by 125, acknowledge, resume. */
  function Tick(dev: Rtc): (r: (Rtc, InterruptResult))
    ensures r.0.timestamp == dev.timestamp + TICK_INCREMENT
    ensures r.0.readLog == dev.readLog + [STATUS_C_REGISTER as int]
    ensures r.0.regs == dev.regs && r.0.handle == dev.handle
    ensures r.1 == InterruptResult(false, Resume)
  {
    var advanced := dev.(timestamp := dev.timestamp + TICK_INCREMENT);
    (Reset(advanced), InterruptResult(false, Resume))
  }

  /** The device after `n` firings of the handler. */
  function Fire(dev: Rtc, n: nat): Rtc
    decreases n
  {
    if n == 0 then dev else Fire(Tick(dev).0, n - 1)
  }

  /**
   * `n` firings advance the timestamp by exactly 125 n, acknowledge status C
   * `n` times, and leave the registers and the handle alone.
   */
  lemma {:induction false} FiringsAccumulate(dev: Rtc, n: nat)
    ensures Fire(dev, n).timestamp == dev.timestamp + TICK_INCREMENT * n
    ensures Fire(dev, n).readLog == dev.readLog + seq(n, _ => STATUS_C_REGISTER as int)
    ensures Fire(dev, n).regs == dev.regs && Fire(dev, n).handle == dev.handle
    decreases n
  {
    if n > 0 {
      var next := Tick(dev).0;
      FiringsAccumulate(next, n - 1);
      assert next.readLog + seq(n - 1, _ => STATUS_C_REGISTER as int)
             == dev.readLog + seq(n, _ => STATUS_C_REGISTER as int);
    }
  }

  /** The timestamp never decreases: more firings, a later time. */
  lemma {:induction false} TimestampIsMonotonic(dev: Rtc, m: nat, n: nat)
    requires m <= n
    ensures Fire(dev, m).timestamp <= Fire(dev, n).timestamp
  {
    FiringsAccumulate(dev, m);
    FiringsAccumulate(dev, n);
  }

  /** `fini`: disable the periodic interrupt, then drop the handle. */
  function Fini(dev: Rtc): (r: Rtc)
    ensures r.handle == None
    ensures r.regs[0x0b] == DisableByte(dev.regs[0x0b])
    ensures forall i :: 0 <= i < 0x80 && i != 0x0b ==> r.regs[i] == dev.regs[i]
    ensures r.timestamp == dev.timestamp
    ensures r.readLog == dev.readLog + [STATUS_B_REGISTER as int]
  {
    ReadModifyWrite(dev, STATUS_B_REGISTER, DisableByte).(handle := None)
  }

  /**
   * A successful `init` followed by `fini` leaves status B as it was
   * except for bit 6, now clear, status A with the 1024 Hz rate, every
   * other register untouched, and no handle.
   */
  lemma {:induction false} InitThenFini(dev: Rtc, h: Handle, n: nat)
    ensures var running := Fire(Init(dev, Ok(h)).0, n);
      var stopped := Fini(running);
      && stopped.handle == None
      && stopped.regs[0x0b] == DisableByte(dev.regs[0x0b])
      && stopped.regs[0x0a] == RateByte(dev.regs[0x0a])
      && (forall i :: 0 <= i < 0x80 && i != 0x0a && i != 0x0b ==> stopped.regs[i] == dev.regs[i])
      && stopped.timestamp == dev.timestamp + TICK_INCREMENT * n
  {
    var started := Init(dev, Ok(h)).0;
    FiringsAccumulate(started, n);
    EnableThenDisable(dev.regs[0x0b]);
  }
}
